=== FILE: README.md ===
# Low-stock notification pipeline — a Dafny model

The system has three stages that pass one low-stock signal along:

1. **Emitter** (`backend/index.js`). It compares a product's stock with a fixed threshold of 10. At or below the threshold it mints a correlation id and builds a four-field `StockEvent`. It then hands the base64 of the event's JSON text to a storage-queue client. A failed send is caught and logged. As written, the file never declares the client's `connectionString`, so it fails when it loads; see below.
2. **Consumer** (`yyang334app/src/functions/ProcessStockEvent.js`). A queue-triggered function receives the parsed event from its host. It maps the event to an order request, checks that the supplier URL and key are configured, and posts the request with an `x-api-key` header. Every error thrown inside its `try` block is caught and sorted by whether the supplier answered.
3. **Supplier endpoint** (`supplier-api/app.js`). An API-key check compares the header exactly with `API_KEY`, or with `'no-key-configured'` when that is unset or empty. A failed check answers 401 before the handler runs. The `POST /order` handler fills in falsy fields with placeholders and always confirms.

The model writes each stage as pure functions over immutable datatypes. The inputs the code gets from outside become parameters: the uuid, the queue's answer, the network's answer and the environment variables. JavaScript values are a small datatype with ECMAScript truthiness (`JsValues.Truthy`), so `||` and `!` behave as in the source on `""`, `0`, `null` and `undefined`. The queue encoding is concrete in every layer:

- base64 with padding (section 4 of RFC 4648), decoded strictly so that decoding and encoding are inverse bijections;
- UTF-8 (RFC 3629), which `Buffer.from` applies to the JSON text;
- `JSON.stringify` of the flat event, including its string escapes and integer formatting, for strings of Unicode scalar values.

Modules: `Wrappers`, `Octets`, `JsValues`, `Decimal`, `Base64`, `Utf8`, `StockEvents`, `QueueMessage`, `Emitter`, `Http`, `ProcessStockEvent`, `SupplierApi`, `Pipeline` (the three stages joined end to end).

### Behaviour of the code worth noting

- The handler never decodes or validates the message: it reads fields of whatever object the host hands it (yyang334app/src/functions/ProcessStockEvent.js:11-14). A payload without those fields is still posted, with `correlationId` `'N/A'` (`ProcessStockEvent.PostsAbsentFields`).
- The missing-configuration `Error` thrown at ProcessStockEvent.js:23 is caught by the same branch (line 42) as a transport failure. Both are `Outcome.NoResponse`, and only the message tells them apart.
- A remote rejection is logged with its status and body only (ProcessStockEvent.js:40), so `Outcome.RemoteRejected` carries no correlation id.
- The threshold is the constant 10 (backend/index.js:9), and `emitProductStockEvent` returns nothing; the model returns an `Emission` record of what the call did.
- `connectionString` is never declared in backend/index.js. As written, line 6 throws a ReferenceError when the module loads, so `simulateStockDecrease()` at line 40 never runs and no product is checked. The model assumes a queue client that was constructed.

## Model

| member | source | states |
|---|---|---|
| `Emitter.EmitProductStockEvent` | backend/index.js:8-31 | An event is emitted iff `currentStock <= 10`; its product, stock and correlation id are the inputs and the one minted id, unchanged; its message is the low-stock sentence; the send outcome is recorded, never propagated |
| `Emitter.ThresholdBoundary` | backend/index.js:9-10 | A stock of exactly 10 emits an event; 11 does not: the result is `StockFine`, which carries no id |
| `Emitter.SentMessage` | backend/index.js:20-23 | The text handed to `sendMessage` decodes back to exactly the emitted event |
| `Emitter.SendFailureIsSwallowed` | backend/index.js:22-27 | A failed send yields the same event and the same queue message as a successful one, and the call completes normally |
| `Emitter.EmitAll` | backend/index.js:34-38 | Sequential emission produces one record per product, whatever the sends do; record i is an event iff item i is at or below the threshold, for that item's product and stock |
| `Emitter.EmittedInOrder` | backend/index.js:10-18 | The emitted events are exactly the low items, in order, and the j-th carries the j-th minted uuid; stock that is fine mints no uuid |
| `Emitter.DistinctCorrelationIds` | backend/index.js:11 | With a uuid source that never repeats, no two emitted events share a correlation id |
| `Emitter.SimulationEmitsLaptopAndKeyboard` | backend/index.js:34-38 | The Laptop/5, Mouse/25, Keyboard/8 run emits exactly two events, Laptop with the first uuid and Keyboard with the second, with their exact messages |
| `QueueMessage.RoundTrip` | backend/index.js:20 | Base64-decoding, UTF-8-decoding and parsing the queue message gives back the event field for field |
| `QueueMessage.EncodeInjective` | backend/index.js:20 | Two different events never produce the same queue message |
| `Base64.Encode` | backend/index.js:20 | The encoding of n octets is 4·⌈n/3⌉ characters long |
| `Base64.DecodeEncode` | backend/index.js:20 | Decoding the base64 of any octet sequence returns that sequence |
| `Base64.EncodeDecode` | backend/index.js:20 | Every text the strict decoder accepts is the encoding of what it decodes to, so the decoder is the exact inverse |
| `Base64.RfcTestVectors` | backend/index.js:20 | The encoder reproduces the test vectors of section 10 of RFC 4648 for "", "f", "fo", "foo" and "foobar" |
| `Base64.IndexOfCharOf` | backend/index.js:20 | Every character of the base64 alphabet is read back as its own index |
| `Utf8.DecodeEncode` | backend/index.js:20 | Decoding the UTF-8 that `Buffer.from` writes returns the original string |
| `Utf8.DecodeEncodeChar` | backend/index.js:20 | Each code point is read back from its own one to four octets, whatever follows them |
| `StockEvents.ParseSerialize` | backend/index.js:13-20 | Parsing the `JSON.stringify` text of an event gives back the event |
| `StockEvents.ParseEscape` | backend/index.js:20 | Any string, escaped as `JSON.stringify` escapes it, is read back up to its closing quote |
| `Decimal.ParseIntToString` | backend/index.js:16 | The decimal text of an integer, in the message and in the JSON, reads back as that integer |
| `ProcessStockEvent.CorrelationIdOf` | yyang334app/src/functions/ProcessStockEvent.js:12 | The forwarded id is the payload's id exactly when that id is truthy, and `'N/A'` otherwise; it is never falsy |
| `ProcessStockEvent.OrderRequestOf` | yyang334app/src/functions/ProcessStockEvent.js:31-35 | The POST body has the payload's product, the stock as quantity, and the forwarded correlation id, and nothing else |
| `ProcessStockEvent.Handler` | yyang334app/src/functions/ProcessStockEvent.js:18-44 | A POST is made iff URL and key are set and non-empty, to that URL with that key as `x-api-key`. The run ends Confirmed iff the post fulfils. It ends RemoteRejected, with the response's status and body, iff the error has a response. Otherwise it ends NoResponse with the correlation id and the error message, including the config error. No error thrown in the `try` block escapes |
| `ProcessStockEvent.NoPostWithoutConfig` | yyang334app/src/functions/ProcessStockEvent.js:20-24 | Without configuration the network is never consulted and the result is the config error under the correlation id |
| `ProcessStockEvent.ForwardsEvent` | yyang334app/src/functions/ProcessStockEvent.js:11-14 | For an emitter's event, the request carries its product, stock and correlation id unchanged |
| `ProcessStockEvent.PostsAbsentFields` | yyang334app/src/functions/ProcessStockEvent.js:12-14 | A payload with no fields is still posted, under the `'N/A'` id |
| `SupplierApi.ExpectedApiKey` | supplier-api/app.js:7 | The expected key is `API_KEY` when that is non-empty and `'no-key-configured'` otherwise; it is never empty |
| `SupplierApi.ReadOrder` | supplier-api/app.js:23-25 | Falsy `correlationId`, `product`, `quantity` become `'N/A'`, `'Unknown Product'`, `0`; truthy ones pass unchanged |
| `SupplierApi.PostOrder` | supplier-api/app.js:9-31 | The handler runs iff the header equals the expected key. Otherwise the answer is 401 with the exact error body. If it runs, the answer is 200 and `confirmed`, and it echoes the defaulted id with the message for the defaulted product |
| `SupplierApi.UnauthorizedIgnoresBody` | supplier-api/app.js:12-17 | A rejected request's body makes no difference to the answer |
| `SupplierApi.AuthorizedIsConfirmed` | supplier-api/app.js:22-31 | Every authorised request is confirmed; there is no rejection path; a truthy correlation id is echoed unchanged |
| `SupplierApi.EmptyBodyDefaults` | supplier-api/app.js:23-30 | An empty body with the right key gets `'Unknown Product'`, `0`, `'N/A'` and the message "Order for Unknown Product received successfully!" |
| `SupplierApi.UnsetKeyAcceptsDefault` | supplier-api/app.js:7-13 | With `API_KEY` unset or empty, a request bearing the literal `no-key-configured` is authorised |
| `Pipeline.Settle` | yyang334app/src/functions/ProcessStockEvent.js:31-39 | A response fulfils the awaited post iff its status is 2xx; any other status rejects with the response attached |
| `Pipeline.LowStockIsConfirmed` | yyang334app/src/functions/ProcessStockEvent.js:11-37 | A low-stock event, delivered through the queue to a handler that posts to the supplier's address with a visible-ASCII key matching the supplier's, is confirmed. The emitter's correlation id appears unchanged in the request, the outcome and the supplier's echo |
| `Pipeline.ConfirmedEvent` | supplier-api/app.js:22-30 | Any event with an id, posted to the supplier's address with the matching visible-ASCII key, is confirmed echoing that id |
| `Pipeline.WrongKeyIsRemoteRejection` | supplier-api/app.js:12-16 | A visible-ASCII key the supplier does not expect, posted to the supplier's address, ends, at the consumer, as a remote rejection with status 401 and the error body |
| `Pipeline.OtherUrlIsNoResponse` | yyang334app/src/functions/ProcessStockEvent.js:31-42 | A handler configured with a URL at which no server listens still posts, and the run ends as NoResponse under the forwarded correlation id |
| `Pipeline.ServerErrorIsRemoteRejection` | yyang334app/src/functions/ProcessStockEvent.js:39-40 | An HTTP 500 is classified as a remote rejection with its body, and the handler returns normally |
| `Pipeline.SimulationConfirmsBoth` | backend/index.js:34-38 | Both events of the simulated run, posted to the supplier's address, are confirmed by a supplier whose visible-ASCII key matches, each echoing its own correlation id |

## Left out

- Azure Queue client construction and `sendMessage` (backend/index.js:2-6, 23): the send is an input `SendOutcome`, and the k-th send's result is `sends(k)`. The ReferenceError that the undeclared `connectionString` raises at line 6 is not modelled: the model assumes the client exists.
- uuid generation (backend/index.js:3, 11): the k-th minted id is `uuids(k)`. Uniqueness is assumed as `Emitter.Injective`, not proved.
- Azure Functions registration, trigger binding and the host's own decoding (ProcessStockEvent.js:1-8). Host decoding is modelled only as the inverse of the emitter's encoding (`QueueMessage.Decode`). The JSON reader accepts only the emitter's shape: fixed key order, no white space, no surrogate-pair escapes. General `JSON.parse` and the host's handling of non-JSON messages are not modelled.
- axios and the network: a request's fate is the function parameter `post`. Timeouts are not modelled. A non-2xx answer is given axios's message `Request failed with status code N`, which no outcome reports.
- Express setup, `express.json()`, `app.listen` and the `GET /` banner (supplier-api/app.js:2-4, 20, 33-39).
- Environment variables: they are explicit `Option<string>` inputs.
- Log lines (backend/index.js:24, 26, 29; ProcessStockEvent.js:9, 16, 37, 40, 42; supplier-api/app.js:27). Their text is not modelled. Each `Outcome` carries the values its log line reports.
- async/await scheduling and concurrent consumer invocations: every stage is modelled as one sequential, single-message run.
- The delivered message is modelled as an object (`Payload`). A `null` or `undefined` message makes `payload.correlationId` throw a TypeError at ProcessStockEvent.js:12, before the `try`, and that path is not modelled.
- Strings are sequences of Unicode scalar values. JavaScript strings may hold lone UTF-16 surrogates, which `JSON.stringify` writes as `\udXXX` escapes; those strings and that escape are not modelled.
- Pipeline.Supplier: a request to the supplier's address always reaches it, and the `x-api-key` header arrives exactly as sent. Node's trimming of surrounding white space and its refusal of control characters in header values are not modelled. `address` stands for every URL that reaches `POST /order`, and every other URL stands for one at which no server listens. A request there is rejected without a response, with a fixed message in place of the text axios or Node would give. Other URLs on the supplier's host are not modelled: other paths get Express's 404, which ends as RemoteRejected, and `/order/` or `/ORDER` reach the same handler. Parsing of malformed URLs and other servers answering at other addresses are not modelled either.
- Pipeline.LowStockIsConfirmed: requires a `HeaderSafe` (visible-ASCII) key, because Node may alter or refuse any other key on the way.
- Pipeline.ConfirmedEvent: requires a `HeaderSafe` key, for the same reason.
- Pipeline.SimulationConfirmsBoth: requires a `HeaderSafe` key, for the same reason.
- Pipeline.WrongKeyIsRemoteRejection: requires a `HeaderSafe` key. A key that differs from the expected one only by surrounding white space may be confirmed after trimming.
- JavaScript numbers are integers here. `NaN`, `-0`, fractions and the exponent form that `String` uses from 1e21 up are not modelled. Arrays are not modelled; an object value is the single `Object` case.
- `StockEvents.ParseSerialize`: proves only that parsing inverts serialising. It does not prove that the reader rejects every text `JSON.parse` would reject.

=== FILE: base64.dfy ===
/**
  Base 64 encoding with the standard alphabet and `=` padding, as defined in
  section 4 of RFC 4648 (`Buffer.toString('base64')`). The decoder is strict:
  it rejects characters outside the alphabet, misplaced padding, and the
  non-zero pad bits that section 3.5 of RFC 4648 allows a decoder to refuse,
  so that encoding and decoding are inverse bijections.
 */
module Base64 {
  import opened Wrappers
  import opened Octets

  /** A 6-bit group, the index of one character of the alphabet. */
  type Sextet = x: int | 0 <= x < 64

  const Pad: char := '='

  /** Table 1 of RFC 4648. */
  function CharOf(i: Sextet): (c: char)
    ensures c != Pad
  {
    if i < 26 then ('A' as int + i) as char
    else if i < 52 then ('a' as int + (i - 26)) as char
    else if i < 62 then ('0' as int + (i - 52)) as char
    else if i == 62 then '+'
    else '/'
  }

  /** The inverse of Table 1: the value a character stands for, if any. */
  function IndexOf(c: char): (r: Option<Sextet>)
    ensures r.Some? ==> CharOf(r.value) == c
  {
    if 'A' <= c <= 'Z' then Some(c as int - 'A' as int)
    else if 'a' <= c <= 'z' then Some(c as int - 'a' as int + 26)
    else if '0' <= c <= '9' then Some(c as int - '0' as int + 52)
    else if c == '+' then Some(62)
    else if c == '/' then Some(63)
    else None
  }

  /** Three octets become four characters. */
  function EncodeGroup(b0: Byte, b1: Byte, b2: Byte): (q: string)
    ensures |q| == 4 && Pad !in q
  {
    [CharOf(b0 / 4), CharOf(b0 % 4 * 16 + b1 / 16), CharOf(b1 % 16 * 4 + b2 / 64), CharOf(b2 % 64)]
  }

  /** A final quantum of one octet: two characters and two pads. */
  function EncodeOne(b0: Byte): (q: string)
    ensures |q| == 4
  {
    [CharOf(b0 / 4), CharOf(b0 % 4 * 16), Pad, Pad]
  }

  /** A final quantum of two octets: three characters and one pad. */
  function EncodeTwo(b0: Byte, b1: Byte): (q: string)
    ensures |q| == 4
  {
    [CharOf(b0 / 4), CharOf(b0 % 4 * 16 + b1 / 16), CharOf(b1 % 16 * 4), Pad]
  }

  function Encode(bs: seq<Byte>): (s: string)
    ensures |s| == (|bs| + 2) / 3 * 4
    decreases |bs|
  {
    if |bs| == 0 then []
    else if |bs| == 1 then EncodeOne(bs[0])
    else if |bs| == 2 then EncodeTwo(bs[0], bs[1])
    else EncodeGroup(bs[0], bs[1], bs[2]) + Encode(bs[3..])
  }

  /** The octets that sextets carry: the first spans i0 and the top of i1, ... */
  function Octet0(i0: Sextet, i1: Sextet): Byte { i0 as int * 4 + i1 as int / 16 }
  function Octet1(i1: Sextet, i2: Sextet): Byte { i1 as int % 16 * 16 + i2 as int / 4 }
  function Octet2(i2: Sextet, i3: Sextet): Byte { i2 as int % 4 * 64 + i3 as int }

  predicate InAlphabet(c: char) {
    IndexOf(c).Some?
  }

  /** Four alphabet characters become three octets. */
  function DecodeGroup(q: string): (r: Option<seq<Byte>>)
    requires |q| == 4
  {
    if InAlphabet(q[0]) && InAlphabet(q[1]) && InAlphabet(q[2]) && InAlphabet(q[3]) then
      var i0, i1, i2, i3 := IndexOf(q[0]).value, IndexOf(q[1]).value, IndexOf(q[2]).value, IndexOf(q[3]).value;
      Some([Octet0(i0, i1), Octet1(i1, i2), Octet2(i2, i3)])
    else None
  }

  /** The last quantum, which may carry one or two pads; the bits the pads leave over must be zero. */
  function DecodeLast(q: string): (r: Option<seq<Byte>>)
    requires |q| == 4
  {
    if q[2] == Pad && q[3] == Pad then
      if InAlphabet(q[0]) && InAlphabet(q[1]) && IndexOf(q[1]).value % 16 == 0 then
        Some([Octet0(IndexOf(q[0]).value, IndexOf(q[1]).value)])
      else None
    else if q[3] == Pad then
      if InAlphabet(q[0]) && InAlphabet(q[1]) && InAlphabet(q[2]) && IndexOf(q[2]).value % 4 == 0 then
        var i0, i1, i2 := IndexOf(q[0]).value, IndexOf(q[1]).value, IndexOf(q[2]).value;
        Some([Octet0(i0, i1), Octet1(i1, i2)])
      else None
    else DecodeGroup(q)
  }

  function Decode(s: string): (r: Option<seq<Byte>>)
    decreases |s|
  {
    if |s| == 0 then Some([])
    else if |s| < 4 then None
    else if |s| == 4 then DecodeLast(s)
    else
      match (DecodeGroup(s[..4]), Decode(s[4..]))
      case (Some(g), Some(t)) => Some(g + t)
      case _ => None
  }

  /** Every character of the alphabet is read back as its own index. */
  lemma IndexOfCharOf(i: Sextet)
    ensures IndexOf(CharOf(i)) == Some(i)
  {
    var c := CharOf(i);
    if i < 26 {
      assert 'A' <= c <= 'Z';
    } else if i < 52 {
      assert 'a' <= c <= 'z';
    } else if i < 62 {
      assert '0' <= c <= '9';
    }
  }

  /** Splitting octets into sextets and joining them back are inverse. */
  lemma JoinSplit(b0: Byte, b1: Byte, b2: Byte)
    ensures Octet0(b0 / 4, b0 % 4 * 16 + b1 / 16) == b0
    ensures Octet1(b0 % 4 * 16 + b1 / 16, b1 % 16 * 4 + b2 / 64) == b1
    ensures Octet2(b1 % 16 * 4 + b2 / 64, b2 % 64) == b2
  {
    var i1 := b0 % 4 * 16 + b1 / 16;
    var i2 := b1 % 16 * 4 + b2 / 64;
    assert i1 / 16 == b0 % 4 && i1 % 16 == b1 / 16;
    assert i2 / 4 == b1 % 16 && i2 % 4 == b2 / 64;
  }

  lemma SplitJoin(i0: Sextet, i1: Sextet, i2: Sextet, i3: Sextet)
    ensures Octet0(i0, i1) / 4 == i0 && Octet0(i0, i1) % 4 == i1 / 16
    ensures Octet1(i1, i2) / 16 == i1 % 16 && Octet1(i1, i2) % 16 == i2 / 4
    ensures Octet2(i2, i3) / 64 == i2 % 4 && Octet2(i2, i3) % 64 == i3
  {
  }

  lemma DecodeGroupChars(i0: Sextet, i1: Sextet, i2: Sextet, i3: Sextet)
    ensures DecodeGroup([CharOf(i0), CharOf(i1), CharOf(i2), CharOf(i3)]) == Some([Octet0(i0, i1), Octet1(i1, i2), Octet2(i2, i3)])
  {
    IndexOfCharOf(i0);
    IndexOfCharOf(i1);
    IndexOfCharOf(i2);
    IndexOfCharOf(i3);
  }

  lemma DecodeTwoPadChars(i0: Sextet, i1: Sextet)
    requires i1 % 16 == 0
    ensures DecodeLast([CharOf(i0), CharOf(i1), Pad, Pad]) == Some([Octet0(i0, i1)])
  {
    IndexOfCharOf(i0);
    IndexOfCharOf(i1);
  }

  lemma DecodeOnePadChars(i0: Sextet, i1: Sextet, i2: Sextet)
    requires i2 % 4 == 0
    ensures DecodeLast([CharOf(i0), CharOf(i1), CharOf(i2), Pad]) == Some([Octet0(i0, i1), Octet1(i1, i2)])
  {
    IndexOfCharOf(i0);
    IndexOfCharOf(i1);
    IndexOfCharOf(i2);
  }

  lemma GroupRoundTrip(b0: Byte, b1: Byte, b2: Byte)
    ensures DecodeGroup(EncodeGroup(b0, b1, b2)) == Some([b0, b1, b2])
  {
    DecodeGroupChars(b0 / 4, b0 % 4 * 16 + b1 / 16, b1 % 16 * 4 + b2 / 64, b2 % 64);
    JoinSplit(b0, b1, b2);
  }

  lemma OneRoundTrip(b0: Byte)
    ensures DecodeLast(EncodeOne(b0)) == Some([b0])
  {
    var i1 := b0 % 4 * 16;
    assert i1 % 16 == 0;
    DecodeTwoPadChars(b0 / 4, i1);
    JoinSplit(b0, 0, 0);
  }

  lemma TwoRoundTrip(b0: Byte, b1: Byte)
    ensures DecodeLast(EncodeTwo(b0, b1)) == Some([b0, b1])
  {
    var i2 := b1 % 16 * 4;
    assert i2 % 4 == 0;
    DecodeOnePadChars(b0 / 4, b0 % 4 * 16 + b1 / 16, i2);
    JoinSplit(b0, b1, 0);
  }

  /** A full quantum followed by more text decodes group by group. */
  lemma DecodeLeadingGroup(q: string, t: string, g: seq<Byte>, u: seq<Byte>)
    requires |q| == 4 && |t| > 0
    requires DecodeGroup(q) == Some(g) && Decode(t) == Some(u)
    ensures Decode(q + t) == Some(g + u)
  {
    assert (q + t)[..4] == q && (q + t)[4..] == t;
  }

  /** A text of a single quantum is decoded as the last quantum. */
  lemma DecodeQuantum(q: string)
    requires |q| == 4
    ensures Decode(q) == DecodeLast(q)
  {
  }

  /** A quantum without padding decodes as a full group. */
  lemma DecodeUnpadded(q: string)
    requires |q| == 4 && Pad !in q
    ensures Decode(q) == DecodeGroup(q)
  {
    assert q[3] != Pad;
  }

  lemma DecodeEncodeOne(bs: seq<Byte>)
    requires |bs| == 1
    ensures Decode(Encode(bs)) == Some(bs)
  {
    assert Encode(bs) == EncodeOne(bs[0]);
    DecodeQuantum(EncodeOne(bs[0]));
    OneRoundTrip(bs[0]);
    assert bs == [bs[0]];
  }

  lemma DecodeEncodeTwo(bs: seq<Byte>)
    requires |bs| == 2
    ensures Decode(Encode(bs)) == Some(bs)
  {
    assert Encode(bs) == EncodeTwo(bs[0], bs[1]);
    DecodeQuantum(EncodeTwo(bs[0], bs[1]));
    TwoRoundTrip(bs[0], bs[1]);
    assert bs == [bs[0], bs[1]];
  }

  lemma DecodeEncodeThree(bs: seq<Byte>)
    requires |bs| == 3
    ensures Decode(Encode(bs)) == Some(bs)
  {
    var q := EncodeGroup(bs[0], bs[1], bs[2]);
    assert Encode(bs) == q + Encode([]);
    assert Encode(bs) == q;
    DecodeUnpadded(q);
    GroupRoundTrip(bs[0], bs[1], bs[2]);
    assert bs == [bs[0], bs[1], bs[2]];
  }

  /** A leading group round-trips in front of any non-empty text that decodes. */
  lemma DecodeGroupThen(b0: Byte, b1: Byte, b2: Byte, t: string, rest: seq<Byte>)
    requires |t| > 0 && Decode(t) == Some(rest)
    ensures Decode(EncodeGroup(b0, b1, b2) + t) == Some([b0, b1, b2] + rest)
  {
    GroupRoundTrip(b0, b1, b2);
    DecodeLeadingGroup(EncodeGroup(b0, b1, b2), t, [b0, b1, b2], rest);
  }

  /** An input longer than one quantum is encoded group by group. */
  lemma EncodeGroups(bs: seq<Byte>)
    requires |bs| > 3
    ensures Encode(bs) == EncodeGroup(bs[0], bs[1], bs[2]) + Encode(bs[3..])
    ensures |Encode(bs[3..])| > 0
    ensures bs == [bs[0], bs[1], bs[2]] + bs[3..]
  {
    var rest := bs[3..];
    assert |rest| > 0;
    assert |Encode(rest)| == (|rest| + 2) / 3 * 4;
    assert (|rest| + 2) / 3 >= 1;
  }

  /** The test vectors of section 10 of RFC 4648 ("f", "fo", "foo", "foobar"). */
  lemma RfcTestVectors()
    ensures Encode([]) == ""
    ensures Encode([0x66]) == "Zg=="
    ensures Encode([0x66, 0x6f]) == "Zm8="
    ensures Encode([0x66, 0x6f, 0x6f]) == "Zm9v"
    ensures Encode([0x66, 0x6f, 0x6f, 0x62, 0x61, 0x72]) == "Zm9vYmFy"
  {
  }

  /** Decoding what was encoded gives the octets back. */
  lemma {:induction false} DecodeEncode(bs: seq<Byte>)
    ensures Decode(Encode(bs)) == Some(bs)
    decreases |bs|
  {
    if |bs| == 1 {
      DecodeEncodeOne(bs);
    } else if |bs| == 2 {
      DecodeEncodeTwo(bs);
    } else if |bs| == 3 {
      DecodeEncodeThree(bs);
    } else if |bs| > 3 {
      var rest := bs[3..];
      DecodeEncode(rest);
      EncodeGroups(bs);
      DecodeGroupThen(bs[0], bs[1], bs[2], Encode(rest), rest);
    }
  }

  lemma EncodeSextets(i0: Sextet, i1: Sextet, i2: Sextet, i3: Sextet)
    ensures EncodeGroup(Octet0(i0, i1), Octet1(i1, i2), Octet2(i2, i3)) == [CharOf(i0), CharOf(i1), CharOf(i2), CharOf(i3)]
  {
    SplitJoin(i0, i1, i2, i3);
  }

  lemma GroupCanonical(q: string)
    requires |q| == 4 && DecodeGroup(q).Some?
    ensures var g := DecodeGroup(q).value; EncodeGroup(g[0], g[1], g[2]) == q
  {
    var i0, i1, i2, i3 := IndexOf(q[0]).value, IndexOf(q[1]).value, IndexOf(q[2]).value, IndexOf(q[3]).value;
    assert DecodeGroup(q).value == [Octet0(i0, i1), Octet1(i1, i2), Octet2(i2, i3)];
    EncodeSextets(i0, i1, i2, i3);
    assert q == [CharOf(i0), CharOf(i1), CharOf(i2), CharOf(i3)];
  }

  lemma LastCanonical(q: string)
    requires |q| == 4 && DecodeLast(q).Some?
    ensures var b := DecodeLast(q).value;
      && 1 <= |b| <= 3
      && (|b| == 1 ==> EncodeOne(b[0]) == q)
      && (|b| == 2 ==> EncodeTwo(b[0], b[1]) == q)
      && (|b| == 3 ==> EncodeGroup(b[0], b[1], b[2]) == q)
  {
    if q[2] == Pad && q[3] == Pad {
      var i0, i1 := IndexOf(q[0]).value, IndexOf(q[1]).value;
      SplitJoin(i0, i1, 0, 0);
    } else if q[3] == Pad {
      var i0, i1, i2 := IndexOf(q[0]).value, IndexOf(q[1]).value, IndexOf(q[2]).value;
      SplitJoin(i0, i1, i2, 0);
    } else {
      GroupCanonical(q);
    }
  }

  /** Every text the decoder accepts is the encoding of what it decodes to. */
  lemma {:induction false} EncodeDecode(s: string)
    requires Decode(s).Some?
    ensures Encode(Decode(s).value) == s
    decreases |s|
  {
    if |s| == 4 {
      LastCanonical(s);
    } else if |s| > 4 {
      var g := DecodeGroup(s[..4]).value;
      var t := Decode(s[4..]).value;
      GroupCanonical(s[..4]);
      EncodeDecode(s[4..]);
      var bs := g + t;
      assert bs[3..] == t;
      assert s == s[..4] + s[4..];
      assert |t| > 0 by {
        assert |Encode(t)| == |s| - 4;
      }
    }
  }
}

=== FILE: decimal.dfy ===
/**
  Decimal text of integers, as JavaScript writes an integral number both in
  a template literal and in `JSON.stringify`, and the JSON number grammar
  that reads it back (an optional minus sign, then digits with no leading
  zero).
 */
module Decimal {
  import opened Wrappers

  predicate IsDigit(c: char) {
    '0' <= c <= '9'
  }

  predicate AllDigits(s: string) {
    forall i :: 0 <= i < |s| ==> IsDigit(s[i])
  }

  function DigitChar(d: int): (c: char)
    requires 0 <= d < 10
    ensures IsDigit(c) && c as int - '0' as int == d
  {
    ('0' as int + d) as char
  }

  function DigitValue(c: char): (d: nat)
    requires IsDigit(c)
    ensures d < 10 && DigitChar(d) == c
  {
    c as int - '0' as int
  }

  /** Shortest decimal text of a natural number. */
  function NatToString(n: nat): (s: string)
    ensures |s| > 0 && AllDigits(s)
    ensures s[0] == '0' ==> n == 0
    decreases n
  {
    if n < 10 then [DigitChar(n)] else NatToString(n / 10) + [DigitChar(n % 10)]
  }

  /** `String(n)` for an integral number `n`. */
  function IntToString(n: int): (s: string)
    ensures |s| > 0
  {
    if n < 0 then "-" + NatToString(-n) else NatToString(n)
  }

  /** The value of a run of decimal digits, most significant first. */
  function DigitsValue(ds: string): nat
    requires AllDigits(ds)
    decreases |ds|
  {
    if |ds| == 0 then 0 else DigitsValue(ds[..|ds| - 1]) * 10 + DigitValue(ds[|ds| - 1])
  }

  /** Length of the longest prefix of `s` made of digits. */
  function SpanDigits(s: string): (k: nat)
    ensures k <= |s| && AllDigits(s[..k])
    ensures k < |s| ==> !IsDigit(s[k])
    decreases |s|
  {
    if |s| > 0 && IsDigit(s[0]) then 1 + SpanDigits(s[1..]) else 0
  }

  /** A JSON integer at the head of `s`, and the text after it. */
  function ParseInt(s: string): (r: Option<(int, string)>)
    ensures r.Some? ==> |r.value.1| < |s|
  {
    var negative := |s| > 0 && s[0] == '-';
    var t := if negative then s[1..] else s;
    var k := SpanDigits(t);
    if k == 0 || (k > 1 && t[0] == '0') then None
    else
      var v: int := DigitsValue(t[..k]);
      Some((if negative then -v else v, t[k..]))
  }

  lemma {:induction false} DigitsValueOfNatToString(n: nat)
    ensures DigitsValue(NatToString(n)) == n
    decreases n
  {
    if n >= 10 {
      var s := NatToString(n);
      assert s[..|s| - 1] == NatToString(n / 10);
      DigitsValueOfNatToString(n / 10);
    }
  }

  lemma {:induction false} SpanOfDigitsThenOther(ds: string, rest: string)
    requires AllDigits(ds)
    requires rest == [] || !IsDigit(rest[0])
    ensures SpanDigits(ds + rest) == |ds|
    decreases |ds|
  {
    if |ds| > 0 {
      assert (ds + rest)[1..] == ds[1..] + rest;
      SpanOfDigitsThenOther(ds[1..], rest);
    }
  }

  /** Reading back the text of `n` yields `n` and leaves what followed it. */
  lemma ParseIntToString(n: int, rest: string)
    requires rest == [] || !IsDigit(rest[0])
    ensures ParseInt(IntToString(n) + rest) == Some((n, rest))
  {
    var m: nat := if n < 0 then -n else n;
    var ds := NatToString(m);
    SpanOfDigitsThenOther(ds, rest);
    DigitsValueOfNatToString(m);
    assert (ds + rest)[..|ds|] == ds;
    assert (ds + rest)[|ds|..] == rest;
    if n < 0 {
      assert ("-" + ds + rest)[1..] == ds + rest;
    } else {
      assert IntToString(n) + rest == ds + rest;
    }
  }
}

=== FILE: emitter.dfy ===
/**
  The backend emitter: the low-stock test, the event it builds, the encoded
  message it hands to the queue, and the fixed sequence of checks it runs.
  The generated correlation id and the queue's answer are inputs.
 */
module Emitter {
  import opened Wrappers
  import opened StockEvents
  import Decimal
  import QueueMessage

  const Threshold: int := 10

  /** What the queue client's `sendMessage` did. */
  datatype SendOutcome = Sent | SendFailed(reason: string)

  /** One call: nothing emitted, or an event built and offered to the queue. */
  datatype Emission = StockFine | Emitted(event: StockEvent, send: SendOutcome)

  function LowStockMessage(productName: string, currentStock: int): string {
    "Product " + productName + " stock is low (" + Decimal.IntToString(currentStock) + "). Please reorder."
  }

  /**
    `emitProductStockEvent`. `freshId` is the uuid minted for this call; it is
    used only when an event is emitted. A failed send is caught and recorded,
    never propagated.
   */
  function EmitProductStockEvent(productName: string, currentStock: int, freshId: string, send: SendOutcome): (r: Emission)
    ensures r.Emitted? <==> currentStock <= Threshold
    ensures r.Emitted? ==>
      && r.event.product == productName
      && r.event.currentStock == currentStock
      && r.event.correlationId == freshId
      && r.event.message == LowStockMessage(productName, currentStock)
    ensures r.Emitted? ==> r.send == send
  {
    if currentStock <= Threshold then
      Emitted(StockEvent(productName, currentStock, LowStockMessage(productName, currentStock), freshId), send)
    else
      StockFine
  }

  /** The comparison is `<=`: a stock of exactly 10 is low, 11 is fine and mints no id. */
  lemma ThresholdBoundary(productName: string, freshId: string, send: SendOutcome)
    ensures EmitProductStockEvent(productName, 10, freshId, send).Emitted?
    ensures EmitProductStockEvent(productName, 11, freshId, send) == StockFine
  {
  }

  /** The text `sendMessage` is given for an emitted event; the host reads the event back from it. */
  function SentMessage(em: Emission): (m: string)
    requires em.Emitted?
    ensures QueueMessage.Decode(m) == Some(em.event)
  {
    QueueMessage.RoundTrip(em.event);
    QueueMessage.Encode(em.event)
  }

  /** A failed send leaves the event and the message exactly as a successful one would. */
  lemma SendFailureIsSwallowed(productName: string, currentStock: int, freshId: string, reason: string)
    requires currentStock <= Threshold
    ensures var ok := EmitProductStockEvent(productName, currentStock, freshId, Sent);
            var failed := EmitProductStockEvent(productName, currentStock, freshId, SendFailed(reason));
            failed.Emitted? && failed.event == ok.event && SentMessage(failed) == SentMessage(ok)
  {
  }

  /**
    Sequential emission over `items`; the k-th minted uuid is `uuids(k)` and
    the k-th send ends as `sends(k)`, `minted` counting the uuids already used.
   */
  function EmitAll(items: seq<(string, int)>, uuids: nat -> string, sends: nat -> SendOutcome, minted: nat): (r: seq<Emission>)
    ensures |r| == |items|
    ensures forall i :: 0 <= i < |r| ==> (r[i].Emitted? <==> items[i].1 <= Threshold)
    ensures forall i :: 0 <= i < |r| && r[i].Emitted? ==> r[i].event.product == items[i].0 && r[i].event.currentStock == items[i].1
    decreases |items|
  {
    if |items| == 0 then []
    else
      var e := EmitProductStockEvent(items[0].0, items[0].1, uuids(minted), sends(minted));
      [e] + EmitAll(items[1..], uuids, sends, if e.Emitted? then minted + 1 else minted)
  }

  /** The events actually emitted, in order. */
  function Events(rs: seq<Emission>): seq<StockEvent>
    decreases |rs|
  {
    if |rs| == 0 then []
    else (if rs[0].Emitted? then [rs[0].event] else []) + Events(rs[1..])
  }

  /** The items at or below the threshold, in order. */
  function LowItems(items: seq<(string, int)>): seq<(string, int)>
    decreases |items|
  {
    if |items| == 0 then []
    else (if items[0].1 <= Threshold then [items[0]] else []) + LowItems(items[1..])
  }

  /** The event a low item yields under correlation id `id`. */
  function EventFor(item: (string, int), id: string): StockEvent {
    StockEvent(item.0, item.1, LowStockMessage(item.0, item.1), id)
  }

  /** `es` are the events of `low`, the j-th carrying the uuid minted j-th after `minted`. */
  ghost predicate EventsOf(es: seq<StockEvent>, low: seq<(string, int)>, uuids: nat -> string, minted: nat) {
    && |es| == |low|
    && forall j :: 0 <= j < |es| ==> es[j] == EventFor(low[j], uuids(minted + j))
  }

  lemma EventsOfCons(ev: StockEvent, item: (string, int), es: seq<StockEvent>, low: seq<(string, int)>, uuids: nat -> string, minted: nat)
    requires EventsOf(es, low, uuids, minted + 1)
    requires ev == EventFor(item, uuids(minted))
    ensures EventsOf([ev] + es, [item] + low, uuids, minted)
  {
    var es', low' := [ev] + es, [item] + low;
    forall j | 0 <= j < |es'|
      ensures es'[j] == EventFor(low'[j], uuids(minted + j))
    {
      if j == 0 {
        assert es'[0] == ev && low'[0] == item;
      } else {
        var k := j - 1;
        assert es'[j] == es[k] && low'[j] == low[k];
        assert es[k] == EventFor(low[k], uuids(minted + 1 + k));
        assert minted + 1 + k == minted + j;
      }
    }
  }

  /**
    The batch emits one event per low item, in order, and the j-th of them
    carries the j-th uuid minted: stock that is fine consumes no uuid, and
    no failed send stops the batch.
   */
  lemma {:induction false} EmittedInOrder(items: seq<(string, int)>, uuids: nat -> string, sends: nat -> SendOutcome, minted: nat)
    ensures EventsOf(Events(EmitAll(items, uuids, sends, minted)), LowItems(items), uuids, minted)
    decreases |items|
  {
    if |items| > 0 {
      var e := EmitProductStockEvent(items[0].0, items[0].1, uuids(minted), sends(minted));
      var next := if e.Emitted? then minted + 1 else minted;
      var rs := EmitAll(items, uuids, sends, minted);
      var tail := EmitAll(items[1..], uuids, sends, next);
      assert rs == [e] + tail;
      assert rs[1..] == tail;
      EmittedInOrder(items[1..], uuids, sends, next);
      if e.Emitted? {
        assert Events(rs) == [e.event] + Events(tail);
        assert LowItems(items) == [items[0]] + LowItems(items[1..]);
        EventsOfCons(e.event, items[0], Events(tail), LowItems(items[1..]), uuids, minted);
      } else {
        assert Events(rs) == Events(tail);
        assert LowItems(items) == LowItems(items[1..]);
      }
    }
  }

  ghost predicate Injective(uuids: nat -> string) {
    forall i: nat, j: nat :: i != j ==> uuids(i) != uuids(j)
  }

  /** With a generator that never repeats itself, no two emitted events share a correlation id. */
  lemma DistinctCorrelationIds(items: seq<(string, int)>, uuids: nat -> string, sends: nat -> SendOutcome)
    requires Injective(uuids)
    ensures var es := Events(EmitAll(items, uuids, sends, 0));
      forall j, k :: 0 <= j < k < |es| ==> es[j].correlationId != es[k].correlationId
  {
    EmittedInOrder(items, uuids, sends, 0);
  }

  const Simulation: seq<(string, int)> := [("Laptop", 5), ("Mouse", 25), ("Keyboard", 8)]

  /** `simulateStockDecrease`. */
  function SimulateStockDecrease(uuids: nat -> string, sends: nat -> SendOutcome): seq<Emission> {
    EmitAll(Simulation, uuids, sends, 0)
  }

  lemma SingleDigit(n: nat)
    requires n < 10
    ensures Decimal.IntToString(n) == [Decimal.DigitChar(n)]
  {
  }

  lemma LaptopMessage()
    ensures LowStockMessage("Laptop", 5) == "Product Laptop stock is low (5). Please reorder."
  {
    SingleDigit(5);
  }

  lemma KeyboardMessage()
    ensures LowStockMessage("Keyboard", 8) == "Product Keyboard stock is low (8). Please reorder."
  {
    SingleDigit(8);
  }

  /** The simulation emits for Laptop and Keyboard, in that order, and not for Mouse. */
  lemma SimulationEmitsLaptopAndKeyboard(uuids: nat -> string, sends: nat -> SendOutcome)
    ensures Events(SimulateStockDecrease(uuids, sends)) == [
      StockEvent("Laptop", 5, "Product Laptop stock is low (5). Please reorder.", uuids(0)),
      StockEvent("Keyboard", 8, "Product Keyboard stock is low (8). Please reorder.", uuids(1))]
  {
    var es := Events(SimulateStockDecrease(uuids, sends));
    EmittedInOrder(Simulation, uuids, sends, 0);
    assert LowItems(Simulation) == [("Laptop", 5), ("Keyboard", 8)] by {
      assert Simulation[1..] == [("Mouse", 25), ("Keyboard", 8)];
      assert Simulation[1..][1..] == [("Keyboard", 8)];
    }
    LaptopMessage();
    KeyboardMessage();
    assert |es| == 2;
  }
}

=== FILE: http.dfy ===
/** The shapes that cross the HTTP boundary between the consumer and the supplier. */
module Http {
  import opened JsValues

  /**
    The JSON body of `POST /order` as the supplier's `req.body` sees it; a
    field the sender left `undefined` is absent from the JSON and reads back
    as `Undefined`.
   */
  datatype OrderRequest = OrderRequest(product: JsValue, quantity: JsValue, correlationId: JsValue)

  /** Response bodies: the 401 error object, the order confirmation, or anything else a server may send. */
  datatype ResponseBody =
    | ErrorBody(error: string)
    | Confirmation(message: string, correlationId: JsValue, status: string)
    | OtherBody(text: string)

  datatype HttpResponse = HttpResponse(status: int, body: ResponseBody)

  /** The placeholder both the consumer and the supplier put in place of a falsy correlation id. */
  const MissingCorrelationId: JsValue := Str("N/A")
}

=== FILE: jsvalues.dfy ===
/**
  The few JavaScript values the pipeline's fields can hold, with the
  truthiness that `||` and `!` test and the string conversion a template
  literal applies.
 */
module JsValues {
  import opened Wrappers
  import Decimal

  /** Numbers are integral here; `Object` stands for any object value. */
  datatype JsValue = Undefined | Null | Bool(b: bool) | Num(n: int) | Str(s: string) | Object

  /** ECMAScript ToBoolean restricted to the values above. */
  predicate Truthy(v: JsValue) {
    match v
    case Undefined => false
    case Null => false
    case Bool(b) => b
    case Num(n) => n != 0
    case Str(s) => s != ""
    case Object => true
  }

  /** `a || b`: the left operand when it is truthy, the right one otherwise. */
  function Or(a: JsValue, b: JsValue): (r: JsValue)
    ensures Truthy(a) ==> r == a
    ensures !Truthy(a) ==> r == b
  {
    if Truthy(a) then a else b
  }

  /** An optional string as JavaScript sees it: a `process.env` entry or a request header, `undefined` when absent. */
  function OptionalString(o: Option<string>): JsValue {
    match o
    case None => Undefined
    case Some(s) => Str(s)
  }

  /** ECMAScript ToString, as `${v}` applies it. */
  function Display(v: JsValue): string {
    match v
    case Undefined => "undefined"
    case Null => "null"
    case Bool(b) => if b then "true" else "false"
    case Num(n) => Decimal.IntToString(n)
    case Str(s) => s
    case Object => "[object Object]"
  }

  /** Falsy values are exactly `undefined`, `null`, `false`, `0` and `""`. */
  lemma FalsyValues(v: JsValue)
    ensures !Truthy(v) <==> v in {Undefined, Null, Bool(false), Num(0), Str("")}
  {
  }

  /** A present string is truthy exactly when it is non-empty. */
  lemma OptionalStringTruthy(o: Option<string>)
    ensures Truthy(OptionalString(o)) <==> o.Some? && o.value != ""
  {
  }
}

=== FILE: octets.dfy ===
/** Octets, the unit both the UTF-8 and the base64 layers of the queue message work in. */
module Octets {
  type Byte = x: int | 0 <= x < 0x100
}

=== FILE: pipeline.dfy ===
/**
  The three stages joined: the emitter's message goes through the queue
  host to the handler, whose request reaches the supplier endpoint over a
  network that delivers it, and the supplier's answer comes back through
  axios's default status check.
 */
module Pipeline {
  import opened Wrappers
  import opened JsValues
  import opened Http
  import opened ProcessStockEvent
  import StockEvents
  import QueueMessage
  import Emitter
  import SupplierApi

  /** axios's default `validateStatus`: a 2xx status fulfils, any other status rejects with the response attached. */
  function Settle(response: HttpResponse): (r: AxiosResult)
    ensures r.Fulfilled? <==> 200 <= response.status < 300
    ensures r.Fulfilled? ==> r.data == response.body
    ensures !r.Fulfilled? ==> r == RejectedWithResponse(response)
  {
    if 200 <= response.status < 300 then Fulfilled(response.body) else RejectedWithResponse(response)
  }

  /**
    A header value that crosses Node's HTTP layer unchanged: visible ASCII
    only, so there is no surrounding white space for the server to trim and
    no control character for the client to refuse.
   */
  predicate HeaderSafe(value: string) {
    forall i :: 0 <= i < |value| ==> '!' <= value[i] <= '~'
  }

  /** How a request addressed to no reachable server settles: rejected without a response. */
  const Unreachable: string := "no server answered at the request URL"

  /**
    The supplier endpoint, reached by every request sent to `address` (the
    URL of its `POST /order` route), with the `x-api-key` header arriving
    exactly as sent; `apiKeyEnv` is its `API_KEY`. Every other URL stands for
    one at which no server listens, so such a request is rejected without a
    response. The lemmas below speak only of `HeaderSafe` keys.
   */
  function Supplier(address: string, apiKeyEnv: Option<string>): PostRequest -> AxiosResult {
    (request: PostRequest) =>
      if request.url == address then
        Settle(SupplierApi.PostOrder(apiKeyEnv, Some(request.apiKey), request.body).response)
      else
        RejectedNoResponse(Unreachable)
  }

  /** The host's delivery: the object it hands the handler for a message it can read. */
  function Deliver(message: string): Option<Payload> {
    var e :- QueueMessage.Decode(message);
    Some(PayloadOf(e))
  }

  /**
    A low stock level, a delivered message and matching keys on both sides
    end in a confirmation that carries the correlation id minted by the
    emitter, at every stage.
   */
  lemma LowStockIsConfirmed(productName: string, currentStock: int, freshId: string, url: string, key: string)
    requires currentStock <= Emitter.Threshold
    requires freshId != "" && url != "" && key != "" && HeaderSafe(key)
    ensures var em := Emitter.EmitProductStockEvent(productName, currentStock, freshId, Emitter.Sent);
      && em.Emitted?
      && Deliver(Emitter.SentMessage(em)) == Some(PayloadOf(em.event))
      && var r := Handler(PayloadOf(em.event), FunctionEnv(Some(url), Some(key)), Supplier(url, Some(key)));
      && r.request.Some?
      && r.request.value.body == OrderRequest(Str(productName), Num(currentStock), Str(freshId))
      && r.outcome.Confirmed?
      && r.outcome.correlationId == Str(freshId)
      && r.outcome.data.Confirmation?
      && r.outcome.data.correlationId == Str(freshId)
      && r.outcome.data.status == "confirmed"
  {
    var em := Emitter.EmitProductStockEvent(productName, currentStock, freshId, Emitter.Sent);
    var env := FunctionEnv(Some(url), Some(key));
    var r := Handler(PayloadOf(em.event), env, Supplier(url, Some(key)));
    var request := r.request.value;
    assert SupplierApi.ExpectedApiKey(Some(key)) == key;
    var served := SupplierApi.PostOrder(Some(key), Some(request.apiKey), request.body);
    assert served.handled.Some?;
  }

  /** A key the supplier does not expect ends as a remote rejection with the 401 body. */
  lemma WrongKeyIsRemoteRejection(message: Payload, url: string, key: string, apiKeyEnv: Option<string>)
    requires url != "" && key != "" && HeaderSafe(key) && key != SupplierApi.ExpectedApiKey(apiKeyEnv)
    ensures Handler(message, FunctionEnv(Some(url), Some(key)), Supplier(url, apiKeyEnv)).outcome
      == RemoteRejected(401, ErrorBody(SupplierApi.UnauthorizedError))
  {
  }

  /**
    A handler configured with a URL at which no server listens still posts,
    and the run ends without a response, under the forwarded id.
   */
  lemma OtherUrlIsNoResponse(message: Payload, url: string, key: string, address: string, apiKeyEnv: Option<string>)
    requires url != "" && key != "" && url != address
    ensures var r := Handler(message, FunctionEnv(Some(url), Some(key)), Supplier(address, apiKeyEnv));
      && r.request.Some?
      && r.outcome == NoResponse(CorrelationIdOf(message), Unreachable)
  {
  }

  /** A server error is a remote rejection carrying its status and body, and the handler still returns. */
  lemma ServerErrorIsRemoteRejection(message: Payload, env: FunctionEnv, body: ResponseBody)
    requires Configured(env)
    ensures Handler(message, env, _ => Settle(HttpResponse(500, body))).outcome == RemoteRejected(500, body)
  {
  }

  /** Both events of the simulation are confirmed, each echoing its own correlation id. */
  lemma SimulationConfirmsBoth(uuids: nat -> string, url: string, key: string)
    requires uuids(0) != "" && uuids(1) != "" && url != "" && key != "" && HeaderSafe(key)
    ensures var es := Emitter.Events(Emitter.SimulateStockDecrease(uuids, _ => Emitter.Sent));
      && |es| == 2
      && forall j :: 0 <= j < 2 ==>
        var r := Handler(PayloadOf(es[j]), FunctionEnv(Some(url), Some(key)), Supplier(url, Some(key)));
        r.outcome.Confirmed? && r.outcome.data.Confirmation? && r.outcome.data.correlationId == Str(uuids(j))
  {
    var sends: nat -> Emitter.SendOutcome := _ => Emitter.Sent;
    Emitter.SimulationEmitsLaptopAndKeyboard(uuids, sends);
    var es := Emitter.Events(Emitter.SimulateStockDecrease(uuids, sends));
    forall j | 0 <= j < 2
      ensures var r := Handler(PayloadOf(es[j]), FunctionEnv(Some(url), Some(key)), Supplier(url, Some(key)));
        r.outcome.Confirmed? && r.outcome.data.Confirmation? && r.outcome.data.correlationId == Str(uuids(j))
    {
      var e := es[j];
      assert e.correlationId == uuids(j) && e.currentStock <= Emitter.Threshold;
      ConfirmedEvent(e, url, key);
    }
  }

  /** Any low-stock event with an id reaches a confirmation echoing that id. */
  lemma ConfirmedEvent(e: StockEvents.StockEvent, url: string, key: string)
    requires e.correlationId != "" && url != "" && key != "" && HeaderSafe(key)
    ensures var r := Handler(PayloadOf(e), FunctionEnv(Some(url), Some(key)), Supplier(url, Some(key)));
      r.outcome.Confirmed? && r.outcome.data.Confirmation? && r.outcome.data.correlationId == Str(e.correlationId)
  {
    assert SupplierApi.ExpectedApiKey(Some(key)) == key;
  }
}

=== FILE: processstockevent.dfy ===
/**
  The queue-triggered handler `ProcessStockEvent`. The host hands it an
  already-parsed payload; it maps the payload to an order request, checks
  its configuration, posts the request with the API key, and catches every
  error, sorting it by whether the supplier answered.
 */
module ProcessStockEvent {
  import opened Wrappers
  import opened JsValues
  import opened Http
  import StockEvents
  import Decimal

  /** The fields of the delivered object the handler reads. */
  datatype Payload = Payload(product: JsValue, currentStock: JsValue, correlationId: JsValue)

  /** The object the host hands over for a message the emitter wrote. */
  function PayloadOf(e: StockEvents.StockEvent): Payload {
    Payload(Str(e.product), Num(e.currentStock), Str(e.correlationId))
  }

  /** `SUPPLIER_API_URL` and `SUPPLIER_API_KEY`; `None` when unset. */
  datatype FunctionEnv = FunctionEnv(supplierApiUrl: Option<string>, supplierApiKey: Option<string>)

  /** `axios.post(url, body, {headers: {'x-api-key': apiKey}})`. */
  datatype PostRequest = PostRequest(url: string, apiKey: string, body: OrderRequest)

  /** How the awaited `axios.post` settled. */
  datatype AxiosResult =
    | Fulfilled(data: ResponseBody)
    | RejectedWithResponse(response: HttpResponse)
    | RejectedNoResponse(message: string)

  /** A thrown error; `response` is set when the server answered. */
  datatype JsError = JsError(message: string, response: Option<HttpResponse>)

  /** The three ways one invocation ends, each with what its log line reports. */
  datatype Outcome =
    | Confirmed(correlationId: JsValue, data: ResponseBody)
    | RemoteRejected(status: int, data: ResponseBody)
    | NoResponse(correlationId: JsValue, message: string)

  /** The request posted, if any, and how the invocation ended. */
  datatype Invocation = Invocation(request: Option<PostRequest>, outcome: Outcome)

  const NotConfigured: string := "Supplier API URL or API Key is not configured."

  /** `payload.correlationId || 'N/A'`. */
  function CorrelationIdOf(p: Payload): (r: JsValue)
    ensures Truthy(r)
    ensures r == p.correlationId || r == MissingCorrelationId
    ensures Truthy(p.correlationId) <==> r == p.correlationId
  {
    Or(p.correlationId, MissingCorrelationId)
  }

  /** The POST body: the payload's product, its stock as the quantity, and the correlation id. */
  function OrderRequestOf(p: Payload): (r: OrderRequest)
    ensures r.product == p.product && r.quantity == p.currentStock
    ensures r.correlationId == CorrelationIdOf(p)
  {
    OrderRequest(p.product, p.currentStock, CorrelationIdOf(p))
  }

  /** Both the URL and the key are set and non-empty. */
  predicate Configured(env: FunctionEnv) {
    Truthy(OptionalString(env.supplierApiUrl)) && Truthy(OptionalString(env.supplierApiKey))
  }

  /** The `try` block: the request it posts, if it gets that far, and its value or the error it throws. */
  function TryBlock(p: Payload, env: FunctionEnv, post: PostRequest -> AxiosResult): (Option<PostRequest>, Result<ResponseBody, JsError>) {
    if !Truthy(OptionalString(env.supplierApiUrl)) || !Truthy(OptionalString(env.supplierApiKey)) then
      (None, Err(JsError(NotConfigured, None)))
    else
      var request := PostRequest(env.supplierApiUrl.value, env.supplierApiKey.value, OrderRequestOf(p));
      match post(request)
      case Fulfilled(data) => (Some(request), Ok(data))
      case RejectedWithResponse(response) =>
        (Some(request), Err(JsError("Request failed with status code " + Decimal.IntToString(response.status), Some(response))))
      case RejectedNoResponse(message) => (Some(request), Err(JsError(message, None)))
  }

  /**
    The handler. `post` stands for the network: it is consulted only for the
    request actually sent. Every error the `try` block throws is caught, so
    for a delivered object the handler always returns one of the three
    outcomes.
   */
  function Handler(message: Payload, env: FunctionEnv, post: PostRequest -> AxiosResult): (r: Invocation)
    ensures r.request.Some? <==> Configured(env)
    ensures r.request.Some? ==>
      && Some(r.request.value.url) == env.supplierApiUrl
      && Some(r.request.value.apiKey) == env.supplierApiKey
      && r.request.value.body == OrderRequestOf(message)
    ensures r.outcome.Confirmed? <==> r.request.Some? && post(r.request.value).Fulfilled?
    ensures r.outcome.RemoteRejected? <==> r.request.Some? && post(r.request.value).RejectedWithResponse?
    ensures r.outcome.NoResponse? <==> r.request.None? || post(r.request.value).RejectedNoResponse?
    ensures r.outcome.Confirmed? ==>
      r.outcome == Confirmed(CorrelationIdOf(message), post(r.request.value).data)
    ensures r.outcome.RemoteRejected? ==>
      var response := post(r.request.value).response;
      r.outcome == RemoteRejected(response.status, response.body)
    ensures r.outcome.NoResponse? ==>
      && r.outcome.correlationId == CorrelationIdOf(message)
      && r.outcome.message == (if r.request.None? then NotConfigured else post(r.request.value).message)
  {
    var (sent, result) := TryBlock(message, env, post);
    match result
    case Ok(data) => Invocation(sent, Confirmed(CorrelationIdOf(message), data))
    case Err(error) =>
      if error.response.Some? then
        Invocation(sent, RemoteRejected(error.response.value.status, error.response.value.body))
      else
        Invocation(sent, NoResponse(CorrelationIdOf(message), error.message))
  }

  /** Without configuration nothing is posted, whatever the network would have done. */
  lemma NoPostWithoutConfig(message: Payload, env: FunctionEnv, post1: PostRequest -> AxiosResult, post2: PostRequest -> AxiosResult)
    requires !Configured(env)
    ensures Handler(message, env, post1) == Handler(message, env, post2)
    ensures Handler(message, env, post1) == Invocation(None, NoResponse(CorrelationIdOf(message), NotConfigured))
  {
  }

  /** For a message the emitter wrote, the request carries its product, stock and correlation id unchanged. */
  lemma ForwardsEvent(e: StockEvents.StockEvent, env: FunctionEnv, post: PostRequest -> AxiosResult)
    requires Configured(env) && e.correlationId != ""
    ensures var r := Handler(PayloadOf(e), env, post);
      r.request.Some? && r.request.value.body == OrderRequest(Str(e.product), Num(e.currentStock), Str(e.correlationId))
  {
  }

  /** A payload without any of the fields is still posted, under the placeholder id. */
  lemma PostsAbsentFields(env: FunctionEnv, post: PostRequest -> AxiosResult)
    requires Configured(env)
    ensures var r := Handler(Payload(Undefined, Undefined, Undefined), env, post);
      r.request.Some? && r.request.value.body == OrderRequest(Undefined, Undefined, MissingCorrelationId)
  {
  }
}

=== FILE: queuemessage.dfy ===
/**
  The queue message as the emitter writes it,
  `Buffer.from(JSON.stringify(eventData)).toString('base64')`, and the host's
  inverse that turns it back into the object the consumer's handler receives.
 */
module QueueMessage {
  import opened Wrappers
  import Base64
  import Utf8
  import StockEvents

  function Encode(e: StockEvents.StockEvent): string {
    Base64.Encode(Utf8.Encode(StockEvents.Serialize(e)))
  }

  function Decode(message: string): Option<StockEvents.StockEvent> {
    var bytes :- Base64.Decode(message);
    var text :- Utf8.Decode(bytes);
    StockEvents.Parse(text)
  }

  /** Every event survives the trip through the queue unchanged. */
  lemma RoundTrip(e: StockEvents.StockEvent)
    ensures Decode(Encode(e)) == Some(e)
  {
    var text := StockEvents.Serialize(e);
    Base64.DecodeEncode(Utf8.Encode(text));
    Utf8.DecodeEncode(text);
    StockEvents.ParseSerialize(e);
  }

  /** Distinct events never share a queue message. */
  lemma EncodeInjective(e1: StockEvents.StockEvent, e2: StockEvents.StockEvent)
    requires Encode(e1) == Encode(e2)
    ensures e1 == e2
  {
    RoundTrip(e1);
    RoundTrip(e2);
  }
}

=== FILE: stockevents.dfy ===
/**
  The stock event record and its JSON text, as `JSON.stringify` writes the
  flat four-field object the emitter builds, together with the reader the
  queue host applies to that text. The reader accepts exactly the shape the
  writer produces (fixed key order, no white space); within strings it
  understands every JSON escape except surrogate pairs.
 */
module StockEvents {
  import opened Wrappers
  import Decimal

  datatype StockEvent = StockEvent(product: string, currentStock: int, message: string, correlationId: string)

  function HexDigit(d: int): (c: char)
    requires 0 <= d < 16
  {
    if d < 10 then ('0' as int + d) as char else ('a' as int + (d - 10)) as char
  }

  function HexValue(c: char): (r: Option<int>)
    ensures r.Some? ==> 0 <= r.value < 16
  {
    if '0' <= c <= '9' then Some(c as int - '0' as int)
    else if 'a' <= c <= 'f' then Some(c as int - 'a' as int + 10)
    else if 'A' <= c <= 'F' then Some(c as int - 'A' as int + 10)
    else None
  }

  /** How `JSON.stringify` writes one character inside a string literal. */
  function EscapeChar(c: char): (e: string)
    ensures |e| > 0
  {
    var cp := c as int;
    if c == '"' then "\\\""
    else if c == '\\' then "\\\\"
    else if cp == 0x08 then "\\b"
    else if cp == 0x09 then "\\t"
    else if cp == 0x0A then "\\n"
    else if cp == 0x0C then "\\f"
    else if cp == 0x0D then "\\r"
    else if cp < 0x20 then "\\u00" + [HexDigit(cp / 16), HexDigit(cp % 16)]
    else [c]
  }

  function Escape(s: string): string
    decreases |s|
  {
    if |s| == 0 then [] else EscapeChar(s[0]) + Escape(s[1..])
  }

  /** A JSON string literal. */
  function Quote(s: string): string {
    "\"" + Escape(s) + "\""
  }

  const ProductKey: string := "{\"product\":"
  const StockKey: string := ",\"currentStock\":"
  const MessageKey: string := ",\"message\":"
  const CorrelationKey: string := ",\"correlationId\":"
  const Close: string := "}"

  /** `JSON.stringify(eventData)`: keys in the order the object literal declares them. */
  function Serialize(e: StockEvent): string {
    ProductKey + (Quote(e.product)
    + (StockKey + (Decimal.IntToString(e.currentStock)
    + (MessageKey + (Quote(e.message)
    + (CorrelationKey + (Quote(e.correlationId)
    + Close)))))))
  }

  /** The text after `lit` when `s` starts with it. */
  function Expect(lit: string, s: string): (r: Option<string>)
    ensures r.Some? ==> s == lit + r.value
  {
    if |lit| <= |s| && s[..|lit|] == lit then Some(s[|lit|..]) else None
  }

  /** The character an escape sequence (after its backslash) stands for, and its length. */
  function Unescape(t: string): (r: Option<(char, nat)>)
    ensures r.Some? ==> 1 <= r.value.1 <= |t|
  {
    if |t| == 0 then None
    else if t[0] == '"' || t[0] == '\\' || t[0] == '/' then Some((t[0], 1))
    else if t[0] == 'b' then Some((0x08 as char, 1))
    else if t[0] == 't' then Some((0x09 as char, 1))
    else if t[0] == 'n' then Some((0x0A as char, 1))
    else if t[0] == 'f' then Some((0x0C as char, 1))
    else if t[0] == 'r' then Some((0x0D as char, 1))
    else if t[0] == 'u' && |t| >= 5 then
      match (HexValue(t[1]), HexValue(t[2]), HexValue(t[3]), HexValue(t[4]))
      case (Some(h0), Some(h1), Some(h2), Some(h3)) =>
        var cp := ((h0 * 16 + h1) * 16 + h2) * 16 + h3;
        if 0xD800 <= cp < 0xE000 then None else Some((cp as char, 5))
      case _ => None
    else None
  }

  /** The contents of a string literal whose opening quote is already read, and the text after its closing quote. */
  function ParseStringBody(s: string): (r: Option<(string, string)>)
    ensures r.Some? ==> |r.value.1| < |s|
    decreases |s|
  {
    if |s| == 0 then None
    else if s[0] == '"' then Some(([], s[1..]))
    else if s[0] == '\\' then
      match Unescape(s[1..])
      case None => None
      case Some((c, n)) =>
        match ParseStringBody(s[1 + n..])
        case None => None
        case Some((t, rest)) => Some(([c] + t, rest))
    else if (s[0] as int) < 0x20 then None
    else
      match ParseStringBody(s[1..])
      case None => None
      case Some((t, rest)) => Some(([s[0]] + t, rest))
  }

  function ParseString(s: string): (r: Option<(string, string)>) {
    if |s| > 0 && s[0] == '"' then ParseStringBody(s[1..]) else None
  }

  /** The host's reading of a queue message's JSON text. */
  function Parse(s: string): (r: Option<StockEvent>) {
    var r0 :- Expect(ProductKey, s);
    var product :- ParseString(r0);
    var r1 :- Expect(StockKey, product.1);
    var stock :- Decimal.ParseInt(r1);
    var r2 :- Expect(MessageKey, stock.1);
    var message :- ParseString(r2);
    var r3 :- Expect(CorrelationKey, message.1);
    var id :- ParseString(r3);
    var r4 :- Expect(Close, id.1);
    if r4 == [] then Some(StockEvent(product.0, stock.0, message.0, id.0)) else None
  }

  lemma ExpectPrefix(lit: string, rest: string)
    ensures Expect(lit, lit + rest) == Some(rest)
  {
    assert (lit + rest)[..|lit|] == lit;
  }

  /** One escaped character is read back, whatever follows it. */
  lemma ParseEscapedChar(c: char, t: string)
    ensures ParseStringBody(EscapeChar(c) + t) == match ParseStringBody(t)
      case None => None
      case Some((u, rest)) => Some(([c] + u, rest))
  {
    var e := EscapeChar(c);
    var s := e + t;
    var cp := c as int;
    if |e| == 1 {
      assert s[1..] == t;
    } else {
      assert s[0] == '\\';
      assert s[1..] == e[1..] + t;
      if cp < 0x20 && cp != 0x08 && cp != 0x09 && cp != 0x0A && cp != 0x0C && cp != 0x0D {
        assert HexValue(HexDigit(cp / 16)) == Some(cp / 16);
        assert HexValue(HexDigit(cp % 16)) == Some(cp % 16);
        assert Unescape(s[1..]) == Some((c, 5));
      }
      assert s[1 + |e| - 1..] == t;
    }
  }

  /** The contents of a literal written by `Escape` are read back up to the closing quote. */
  lemma {:induction false} ParseEscape(x: string, rest: string)
    ensures ParseStringBody(Escape(x) + "\"" + rest) == Some((x, rest))
    decreases |x|
  {
    if |x| == 0 {
      assert Escape(x) + "\"" + rest == "\"" + rest;
      assert ("\"" + rest)[1..] == rest;
    } else {
      var t := Escape(x[1..]) + "\"" + rest;
      assert Escape(x) + "\"" + rest == EscapeChar(x[0]) + t;
      ParseEscapedChar(x[0], t);
      ParseEscape(x[1..], rest);
      assert [x[0]] + x[1..] == x;
    }
  }

  lemma ParseQuote(x: string, rest: string)
    ensures ParseString(Quote(x) + rest) == Some((x, rest))
  {
    var s := Quote(x) + rest;
    assert s[1..] == Escape(x) + "\"" + rest;
    ParseEscape(x, rest);
  }

  /** Reading the JSON text of an event gives the event back, field for field. */
  lemma ParseSerialize(e: StockEvent)
    ensures Parse(Serialize(e)) == Some(e)
  {
    var t3 := CorrelationKey + (Quote(e.correlationId) + Close);
    var t2 := MessageKey + (Quote(e.message) + t3);
    var t1 := StockKey + (Decimal.IntToString(e.currentStock) + t2);
    var s := Serialize(e);
    ExpectPrefix(ProductKey, Quote(e.product) + t1);
    assert Expect(ProductKey, s) == Some(Quote(e.product) + t1);
    ParseQuote(e.product, t1);
    ExpectPrefix(StockKey, Decimal.IntToString(e.currentStock) + t2);
    Decimal.ParseIntToString(e.currentStock, t2);
    ExpectPrefix(MessageKey, Quote(e.message) + t3);
    ParseQuote(e.message, t3);
    ExpectPrefix(CorrelationKey, Quote(e.correlationId) + Close);
    ParseQuote(e.correlationId, Close);
    ExpectPrefix(Close, []);
    assert Close + [] == Close;
  }
}

=== FILE: supplierapi.dfy ===
/**
  The supplier's order endpoint: the API-key check that runs before the
  handler, and the `POST /order` handler that fills in missing fields and
  always confirms.
 */
module SupplierApi {
  import opened Wrappers
  import opened JsValues
  import opened Http

  const DefaultApiKey: string := "no-key-configured"
  const UnauthorizedError: string := "Unauthorized. Invalid or missing API Key."

  /** `process.env.API_KEY || 'no-key-configured'`. */
  function ExpectedApiKey(apiKeyEnv: Option<string>): (key: string)
    ensures key != ""
    ensures Truthy(OptionalString(apiKeyEnv)) ==> key == apiKeyEnv.value
    ensures !Truthy(OptionalString(apiKeyEnv)) ==> key == DefaultApiKey
  {
    Or(OptionalString(apiKeyEnv), Str(DefaultApiKey)).s
  }

  /** The `apiKeyAuth` test: `userApiKey && userApiKey === EXPECTED_API_KEY`. */
  predicate ApiKeyAuth(header: Option<string>, expected: string) {
    Truthy(OptionalString(header)) && header.value == expected
  }

  /** The order as the handler reads it after defaulting each falsy field. */
  datatype ReceivedOrder = ReceivedOrder(correlationId: JsValue, product: JsValue, quantity: JsValue)

  /** What the endpoint did: the order the handler read, if it ran, and the response. */
  datatype Served = Served(handled: Option<ReceivedOrder>, response: HttpResponse)

  const UnknownProduct: JsValue := Str("Unknown Product")
  const NoQuantity: JsValue := Num(0)

  function ReadOrder(body: OrderRequest): (o: ReceivedOrder)
    ensures Truthy(o.correlationId) && Truthy(o.product)
    ensures o.correlationId == (if Truthy(body.correlationId) then body.correlationId else MissingCorrelationId)
    ensures o.product == (if Truthy(body.product) then body.product else UnknownProduct)
    ensures o.quantity == (if Truthy(body.quantity) then body.quantity else NoQuantity)
  {
    ReceivedOrder(Or(body.correlationId, MissingCorrelationId), Or(body.product, UnknownProduct), Or(body.quantity, NoQuantity))
  }

  function ConfirmationMessage(product: JsValue): string {
    "Order for " + Display(product) + " received successfully!"
  }

  /** `POST /order` through `apiKeyAuth`; `header` is the `x-api-key` request header. */
  function PostOrder(apiKeyEnv: Option<string>, header: Option<string>, body: OrderRequest): (r: Served)
    ensures r.handled.Some? <==> header == Some(ExpectedApiKey(apiKeyEnv))
    ensures r.handled.None? ==> r.response == HttpResponse(401, ErrorBody(UnauthorizedError))
    ensures r.handled.Some? ==>
      && r.handled.value == ReadOrder(body)
      && r.response.status == 200
      && r.response.body == Confirmation(ConfirmationMessage(r.handled.value.product), r.handled.value.correlationId, "confirmed")
  {
    if ApiKeyAuth(header, ExpectedApiKey(apiKeyEnv)) then
      var order := ReadOrder(body);
      Served(Some(order), HttpResponse(200, Confirmation(ConfirmationMessage(order.product), order.correlationId, "confirmed")))
    else
      Served(None, HttpResponse(401, ErrorBody(UnauthorizedError)))
  }

  /** A rejected request never reaches the handler, so its body makes no difference. */
  lemma UnauthorizedIgnoresBody(apiKeyEnv: Option<string>, header: Option<string>, body1: OrderRequest, body2: OrderRequest)
    requires header != Some(ExpectedApiKey(apiKeyEnv))
    ensures PostOrder(apiKeyEnv, header, body1) == PostOrder(apiKeyEnv, header, body2)
  {
  }

  /** Every request that passes the key check is confirmed and echoes its (defaulted) correlation id. */
  lemma AuthorizedIsConfirmed(apiKeyEnv: Option<string>, body: OrderRequest)
    ensures var r := PostOrder(apiKeyEnv, Some(ExpectedApiKey(apiKeyEnv)), body);
      && r.response.status == 200
      && r.response.body.Confirmation?
      && r.response.body.status == "confirmed"
      && (Truthy(body.correlationId) ==> r.response.body.correlationId == body.correlationId)
  {
  }

  lemma UnknownProductMessage()
    ensures ConfirmationMessage(UnknownProduct) == "Order for Unknown Product received successfully!"
  {
  }

  /** An empty body with the right key gets the documented placeholders. */
  lemma EmptyBodyDefaults(apiKeyEnv: Option<string>)
    ensures PostOrder(apiKeyEnv, Some(ExpectedApiKey(apiKeyEnv)), OrderRequest(Undefined, Undefined, Undefined))
      == Served(Some(ReceivedOrder(MissingCorrelationId, UnknownProduct, NoQuantity)),
                HttpResponse(200, Confirmation("Order for Unknown Product received successfully!", MissingCorrelationId, "confirmed")))
  {
    UnknownProductMessage();
  }

  /** With `API_KEY` unset or empty, the literal default key is accepted. */
  lemma UnsetKeyAcceptsDefault(apiKeyEnv: Option<string>, body: OrderRequest)
    requires apiKeyEnv == None || apiKeyEnv == Some("")
    ensures PostOrder(apiKeyEnv, Some(DefaultApiKey), body).handled.Some?
  {
  }
}

=== FILE: utf8.dfy ===
/**
  UTF-8 (RFC 3629), the encoding `Buffer.from(string)` applies to the JSON
  text before it is base64-encoded. The decoder accepts only well-formed
  sequences: no overlong forms, no surrogates, nothing above U+10FFFF.
 */
module Utf8 {
  import opened Wrappers
  import opened Octets

  predicate IsContinuation(b: Byte) {
    0x80 <= b < 0xC0
  }

  /** The one to four octets of a code point. */
  function EncodeChar(c: char): (bs: seq<Byte>)
    ensures 1 <= |bs| <= 4
  {
    var cp := c as int;
    if cp < 0x80 then [cp]
    else if cp < 0x800 then [0xC0 + cp / 64, 0x80 + cp % 64]
    else if cp < 0x10000 then [0xE0 + cp / 4096, 0x80 + cp / 64 % 64, 0x80 + cp % 64]
    else [0xF0 + cp / 262144, 0x80 + cp / 4096 % 64, 0x80 + cp / 64 % 64, 0x80 + cp % 64]
  }

  function Encode(s: string): (bs: seq<Byte>)
    ensures |s| <= |bs| <= 4 * |s|
    decreases |s|
  {
    if |s| == 0 then [] else EncodeChar(s[0]) + Encode(s[1..])
  }

  predicate IsScalar(cp: int) {
    0 <= cp < 0xD800 || 0xE000 <= cp < 0x110000
  }

  /** The six payload bits of a continuation octet. */
  function Low6(b: Byte): int {
    b as int - 0x80
  }

  /** The code point at the head of `bs` and the number of octets it spans. */
  function DecodeChar(bs: seq<Byte>): (r: Option<(char, nat)>)
    ensures r.Some? ==> 1 <= r.value.1 <= |bs|
  {
    if |bs| == 0 then None
    else
      var b0: int := bs[0];
      if b0 < 0x80 then Some((b0 as char, 1))
      else if 0xC2 <= b0 < 0xE0 then
        if |bs| < 2 || !IsContinuation(bs[1]) then None
        else Some((((b0 - 0xC0) * 64 + Low6(bs[1])) as char, 2))
      else if 0xE0 <= b0 < 0xF0 then
        if |bs| < 3 || !IsContinuation(bs[1]) || !IsContinuation(bs[2]) then None
        else
          var cp := (b0 - 0xE0) * 4096 + Low6(bs[1]) * 64 + Low6(bs[2]);
          if cp < 0x800 || !IsScalar(cp) then None else Some((cp as char, 3))
      else if 0xF0 <= b0 < 0xF5 then
        if |bs| < 4 || !IsContinuation(bs[1]) || !IsContinuation(bs[2]) || !IsContinuation(bs[3]) then None
        else
          var cp := (b0 - 0xF0) * 262144 + Low6(bs[1]) * 4096 + Low6(bs[2]) * 64 + Low6(bs[3]);
          if cp < 0x10000 || !IsScalar(cp) then None else Some((cp as char, 4))
      else None
  }

  function Decode(bs: seq<Byte>): (r: Option<string>)
    decreases |bs|
  {
    if |bs| == 0 then Some([])
    else
      match DecodeChar(bs)
      case None => None
      case Some((c, n)) =>
        match Decode(bs[n..])
        case None => None
        case Some(t) => Some([c] + t)
  }

  /** Each code point is read back from its own octets, whatever follows. */
  lemma DecodeEncodeChar(c: char, rest: seq<Byte>)
    ensures DecodeChar(EncodeChar(c) + rest) == Some((c, |EncodeChar(c)|))
  {
    var cp := c as int;
    var bs := EncodeChar(c) + rest;
    if cp < 0x80 {
    } else if cp < 0x800 {
      assert cp == cp / 64 * 64 + cp % 64;
    } else if cp < 0x10000 {
      assert cp / 64 == cp / 4096 * 64 + cp / 64 % 64;
      assert cp == cp / 64 * 64 + cp % 64;
      assert (bs[0] as int - 0xE0) * 4096 + Low6(bs[1]) * 64 + Low6(bs[2]) == cp;
    } else {
      assert cp / 4096 == cp / 262144 * 64 + cp / 4096 % 64;
      assert cp / 64 == cp / 4096 * 64 + cp / 64 % 64;
      assert cp == cp / 64 * 64 + cp % 64;
      assert (bs[0] as int - 0xF0) * 262144 + Low6(bs[1]) * 4096 + Low6(bs[2]) * 64 + Low6(bs[3]) == cp;
    }
  }

  /** Decoding the UTF-8 of a string gives the string back. */
  lemma {:induction false} DecodeEncode(s: string)
    ensures Decode(Encode(s)) == Some(s)
    decreases |s|
  {
    if |s| > 0 {
      var head := EncodeChar(s[0]);
      var tail := Encode(s[1..]);
      DecodeEncodeChar(s[0], tail);
      assert (head + tail)[|head|..] == tail;
      DecodeEncode(s[1..]);
      assert s == [s[0]] + s[1..];
    }
  }
}

=== FILE: wrappers.dfy ===
/** Failure-compatible wrappers shared by every module of the model. */
module Wrappers {

  /** An optional value; `None` is the failure case for `:-`. */
  datatype Option<+T> = None | Some(value: T) {

    predicate IsFailure() {
      None?
    }

    function PropagateFailure<U>(): Option<U>
      requires None?
    {
      None
    }

    function Extract(): T
      requires Some?
    {
      value
    }
  }

  /** A value or the error that replaced it (a JavaScript `throw`). */
  datatype Result<+T, +E> = Ok(value: T) | Err(error: E)
}
